=== FILE: README.md ===
# Batch prediction driver of pytorch-3dunet, modelled in Dafny

This project models `main/predict.py` of pytorch-3dunet, the driver that runs
a trained 3D U-Net over a series of HDF5 test datasets. It has four parts:

- **Output path derivation** (`paths.dfy`, module `Paths`). `_get_output_file`
  strips the extension of a dataset's file path with POSIX `os.path.splitext`
  semantics and appends `_predictions.h5`. `SplitExt` models `splitext` as a
  scan from the end of the path. `SplitExtSpec` and `SplitExtUnique`
  characterise it independently: the extension starts at the last dot of the
  final path component, and only when a non-dot character precedes that dot
  in the component. The derivation (main/predict.py:13) never gives back the
  source path, but derived paths need not be distinct across datasets: two
  files that differ only in their extension, such as `a.h5` and `a.hdf5`, get
  the same output file, so a run over both overwrites the first prediction.
- **Destination dataset names** (`names.dfy`, module `Names`; `decimal.dfy`,
  module `Decimal`). `_get_dataset_names` has four branches:
  - an explicit string gives a one-element list;
  - an explicit list is returned as is;
  - a count of one gives `["predictions"]`;
  - any other count gives `predictions0`, `predictions1`, and so on.

  `Decimal.NatToString` models Python's `str(i)`, proved against an
  independent reading of the numeral.
- **Predictor dispatch** (`dispatch.dfy`, module `Dispatch`). `_get_predictor`
  reads the `name` of the `predictor` section, defaulting to
  `StandardPredictor`. It resolves that name to a predictor class and
  constructs the class with the model, the loader, the output file, the whole
  configuration, and the whole `predictor` section as keyword options. The
  lookup by reflection is an explicit registry, a map from names to classes.
- **The driver `main`** (`orchestrator.dfy`, module `Orchestrator`).
  - It reads `model_path`, restores the checkpoint, reads `device` and moves
    the model there.
  - Then, for every test loader in order, it derives the output file,
    constructs the predictor and runs it.
  - Nothing is caught, so the first failure ends the run.

  `RunPredictions` and its loop `PredictAll` are methods with a ghost trace of
  the steps taken. They are proved to yield exactly the outcome and trace of
  the specification function `RunSpec`. Lemmas state the properties of
  `RunSpec`:
  - the restore happens once and before any loader;
  - loaders are processed in order, each with one output path, one
    construction and one prediction;
  - the first failing prediction stops the run, and later loaders are never
    touched.

The configuration is a value (`Configs.Config`); the model (`Configs.Model`) and
the test loaders (`Configs.Loader`) sit beside it as the driver's other inputs.
The configuration has these parts:
- the `model_path` and `device` keys are optional;
- the `predictor` section is an optional map of `Configs.Value`s;
- `dest_dataset_name` is absent, a single string, or a list of strings.

The collaborators whose code is not part of this model become inputs:
- `load_config`, `get_model` and `get_test_loaders` supply the
  configuration, the model and the sequence of loaders.
- `utils.load_checkpoint` succeeds exactly for the paths in a given set of
  loadable checkpoints.
- `model.to(device)` succeeds exactly for the devices in a given set of
  available devices.
- `predictor.predict()` has an outcome fixed per loader
  (`Loader.predictSucceeds`).

## Model

| member | source | states |
|---|---|---|
| Paths.SplitExtSpec | main/predict.py:13 | `splitext` returns parts that concatenate back to the path. The extension is empty or a dot followed by neither dots nor separators. It is non-empty exactly when the final component has a dot preceded by a non-dot character. |
| Paths.StemCharInSpec | main/predict.py:13 | The backwards scan over trailing dots finds a stem character exactly when the final component has a non-dot character. |
| Paths.SplitExtUnique | main/predict.py:13 | A stem with a non-dot character in its final component, followed by any extension, splits back into exactly that stem and that extension. |
| Paths.OutputFileShape | main/predict.py:12-13 | The output file ends with the suffix and `.h5`, and what precedes them is a prefix of the source path. |
| Paths.OutputFileReplacesExtension | main/predict.py:12-13 | For a path that has an extension, the output is the path without that extension, then the suffix, then `.h5`. |
| Paths.OutputFileWithoutExtension | main/predict.py:12-13 | For a path with no extension (including a hidden file or a dot inside a directory name), the whole path is the stem. |
| Paths.OutputFileNotSource | main/predict.py:12-13 | With a non-empty suffix, the output path never equals the source path, whatever the source path is. |
| Paths.OutputFileNotInjective | main/predict.py:13 | Output paths need not be distinct across datasets: `a.h5` and `a.hdf5` both give `a_predictions.h5`. |
| Paths.ExtensionOutput | main/predict.py:12-13 | `a.h5` gives `a_predictions.h5`. |
| Paths.SubdirectoryOutput | main/predict.py:12-13 | `data/b.h5` gives `data/b_predictions.h5`. |
| Paths.DirectoryDotExample | main/predict.py:12-13 | `data.v1/volume` gives `data.v1/volume_predictions.h5`: a dot before the last separator is not an extension. |
| Paths.HiddenFileExample | main/predict.py:12-13 | `.hidden` gives `.hidden_predictions.h5`: a leading dot is not an extension. |
| Decimal.NatToString | main/predict.py:27 | `str(i)` is a non-empty digit string without a leading zero (other than `"0"`), and its numeral value is `i`. |
| Names.IndexedName | main/predict.py:27 | `f'{prefix}{i}'` starts with the prefix, and the rest is a numeral whose value is `i`, with no leading zero unless it is `0` itself. |
| Names.DatasetNames | main/predict.py:16-27 | An explicit string gives exactly `[name]` and an explicit list is returned unchanged, whatever the count. Without explicit names, the list has `count` entries (none for a negative count), each starting with the prefix, and a count of one gives exactly `[prefix]`. |
| Names.DefaultNamesIndexed | main/predict.py:24-27 | Without explicit names and for a count other than one, entry `i` is the prefix followed by `str(i)`, in increasing order of `i`. |
| Names.DefaultNamesDistinct | main/predict.py:24-27 | Default names never collide: equal entries sit at the same position. |
| Names.DefaultNameExamples | main/predict.py:23-27 | Counts 1, 3 and 0 give `["predictions"]`, `["predictions0", "predictions1", "predictions2"]` and `[]`. |
| Names.ExplicitNameExamples | main/predict.py:17-22 | For any requested count, the explicit name `foo` gives `["foo"]` and the explicit list `["a", "b"]` is returned unchanged. |
| Dispatch.StrategyName | main/predict.py:31-32 | The default `StandardPredictor` is used exactly when `predictor` or its `name` is missing. Otherwise it is the `name` entry if that is a string, and an error carrying the value if not. |
| Dispatch.GetPredictor | main/predict.py:30-37 | A predictor is built exactly when the name resolves in the registry. It is an instance of the registered class, given the model, loader, output file, configuration and the whole `predictor` section (its `name` included). An unknown name or a non-string name is reported as that error, and nothing is built. |
| Dispatch.DispatchIndependentOfDataset | main/predict.py:30-37 | Whether dispatch succeeds, and which error it reports, depends only on the configuration and the registry, never on the model, loader or output file. |
| Dispatch.DefaultStrategyUsed | main/predict.py:31-35 | With no `name`, the registered `StandardPredictor` class is constructed if it exists; otherwise dispatch fails with that name unknown. |
| Orchestrator.RunPredictions | main/predict.py:40-62 | The driver's outcome and ghost trace are exactly those of `RunSpec`. |
| Orchestrator.PredictAll | main/predict.py:55-62 | The loop's outcome and ghost trace are exactly those of `ProcessFrom` from the first loader. The loop invariant is that the loop's result is always the trace so far followed by what remains. |
| Orchestrator.PredictLoader | main/predict.py:58-62 | One loop turn does exactly what `Step` specifies: derive the path, then construct and predict, or stop at a failed dispatch. |
| Orchestrator.StepResolved | main/predict.py:58-62 | With a resolvable name, a loader's turn takes exactly its three steps and fails only if its prediction does. |
| Orchestrator.AllStepsAt | main/predict.py:55-62 | The steps of a completed loop come in blocks of three. Block `i` belongs to loader `i`: its derived path, the predictor built from that loader and path, and the prediction into that path. |
| Orchestrator.ProcessFromDatasetEventsOnly | main/predict.py:55-62 | The loop takes only per-loader steps, and every predictor it builds is given the one model passed in. |
| Orchestrator.ProcessFromCompletes | main/predict.py:55-62 | The loop completes if and only if no loader is left, or the name resolves and every remaining prediction succeeds. It then took the steps of every remaining loader, in order. |
| Orchestrator.ProcessFromStopsAtFailure | main/predict.py:55-62 | With a resolvable predictor name, if loader `k` is the first whose prediction fails, the loop fails with index `k` after the steps of exactly the loaders up to `k`. |
| Orchestrator.ProcessFromUnresolved | main/predict.py:58-60 | An unresolvable name stops the loop at the next loader, after its path is derived and before any predictor is built. |
| Orchestrator.RestoreOnceBeforeLoop | main/predict.py:48-62 | The checkpoint is loaded only as the first step and the model placed only as the second. Every per-loader step comes after both, and only when both succeeded. Every predictor gets the model restored from `model_path` and placed on `device`. |
| Orchestrator.RestoreFailureProcessesNothing | main/predict.py:48-52 | A missing key, an unloadable checkpoint or an unavailable device aborts the run before any loader is touched. |
| Orchestrator.RunCompletes | main/predict.py:40-62 | The run completes if and only if the restore succeeds, the name resolves (or there is no loader) and every prediction succeeds. It then consists of the two restore steps followed by the three steps of every loader, in order. |
| Orchestrator.RunStopsAtFirstFailure | main/predict.py:48-62 | With a successful restore and a resolvable predictor name, if loader `k` is the first whose prediction fails, the run fails with index `k` after the restore steps and the steps of loaders `0..k`. Loaders after `k` are never touched. |

## Left out

- `load_config`, `get_model` and `get_test_loaders` (main/predict.py:42, 45, 55) are not part of this model. Their results are inputs to `RunPredictions`.
- `utils.load_checkpoint` and `model.to` (main/predict.py:50, 52) are reduced to success or failure. The success sets are given as inputs, and the model is a value recording which checkpoint it was restored from and which device it sits on. Deserialisation, tensors and moving parameters between devices are not modelled.
- The model is a value reassigned by the driver, not a shared mutable object. Aliasing between the model and the predictors that hold it is not captured.
- `predictor.predict()` (main/predict.py:62) is an oracle outcome per loader. The network's computation and the HDF5 writes are not modelled, and the kind of exception a failed prediction raises is reduced to the loader's index.
- Reflection through `importlib.import_module` and `getattr` (main/predict.py:34-35) is an explicit registry. The registry does not contain attributes of `unet3d.predictor` that are not predictor classes, and a failing import of that module is not modelled.
- Dispatch.GetPredictor: an exception raised while the chosen class is constructed is not modelled: a registered class is always constructed here. That covers a `TypeError` from a `predictor` option that repeats a positional parameter (`model`, `loader`, `output_file`, `config`) or that the class does not accept, and anything the class's own constructor raises, such as a missing required option or its own validation of one. In the source, such an error stops the loop after the loader's output path is derived and before `predict()` runs.
- Logging (main/predict.py:9, 49, 51, 54, 56) is left out. The only behavioural effect of line 51, that reading `device` happens after the checkpoint is loaded, is kept.
- A `predictor: null` entry, which makes `.get` fail on `None`, is not modelled: `predictor` is either absent or a map.
- Names.DatasetNames: a `dest_dataset_name` that is neither a string nor a list is not modelled. Python returns such a value unchanged; here explicit names are a string or a list of strings.
- Paths.SplitExtSpec: paths are strings of characters with `/` as the only separator, as on POSIX. Byte-string paths and Windows separators and drive letters are not modelled.
- `_get_dataset_names` is not called by `main`, so it stands on its own in this model.

=== FILE: config.dfy ===
/**
 * The inputs of the prediction driver: the parts of the run configuration
 * it reads, the model and the test loaders. All three are produced by
 * external code; only the shape the driver relies on is modelled.
 */
module Configs {
  import opened Wrappers

  /** A scalar or list value found in the configuration (YAML-style). */
  datatype Value =
    | Str(s: string)
    | Int(i: int)
    | Bool(b: bool)
    | Null
    | Items(items: seq<Value>)

  /**
   * The `dest_dataset_name` entry: absent (or null), a single string, or
   * any other value, which the driver hands back unchanged (a list of names).
   */
  datatype DestName =
    | Absent
    | Single(name: string)
    | Many(names: seq<string>)

  /**
   * The configuration keys the driver reads:
   * `model_path` and `device` (read with `config[...]`, so a missing key
   * raises), `predictor` (an optional sub-mapping of strategy options,
   * including its `name`) and `dest_dataset_name`.
   */
  datatype Config = Config(
    modelPath: Option<string>,
    device: Option<string>,
    predictor: Option<map<string, Value>>,
    destDatasetName: DestName)

  /**
   * The network as the driver sees it: which checkpoint its parameters were
   * restored from and which device it was moved to (None before either step).
   */
  datatype Model = Model(weights: Option<string>, device: Option<string>)

  /**
   * A test loader: the file path of its dataset, and whether running a
   * predictor over it succeeds (the outcome of `predict()`, decided by code
   * outside the driver).
   */
  datatype Loader = Loader(filePath: string, predictSucceeds: bool)
}

=== FILE: decimal.dfy ===
/**
 * Python's `str(i)` for a non-negative integer, as used by the f-string
 * that builds indexed dataset names: the shortest decimal numeral.
 */
module Decimal {

  predicate IsDigit(c: char) {
    '0' <= c <= '9'
  }

  predicate IsNumeral(s: string) {
    forall i :: 0 <= i < |s| ==> IsDigit(s[i])
  }

  function DigitChar(d: nat): (c: char)
    requires d < 10
    ensures IsDigit(c) && c as int - '0' as int == d
  {
    ('0' as int + d) as char
  }

  /** The number a string of decimal digits denotes (an independent reading of a numeral). */
  function NumeralValue(s: string): nat
    requires IsNumeral(s)
  {
    if s == [] then 0 else 10 * NumeralValue(s[..|s| - 1]) + (s[|s| - 1] as int - '0' as int)
  }

  /**
   * `str(n)`: a non-empty string of digits without a leading zero (except
   * for `"0"` itself) that denotes `n`.
   */
  function NatToString(n: nat): (r: string)
    ensures |r| >= 1 && IsNumeral(r)
    ensures r[0] == '0' ==> r == "0"
    ensures NumeralValue(r) == n
    decreases n
  {
    if n < 10 then [DigitChar(n)]
    else
      var r := NatToString(n / 10) + [DigitChar(n % 10)];
      assert r[..|r| - 1] == NatToString(n / 10);
      r
  }
}

=== FILE: dispatch.dfy ===
/**
 * `_get_predictor`: choose a predictor strategy by the name in the
 * `predictor` section of the configuration and construct it. The module
 * lookup by reflection is modelled as an explicit registry from strategy
 * names to predictor classes.
 */
module Dispatch {
  import opened Wrappers
  import opened Configs

  /** The strategy used when the configuration names none. */
  const DefaultStrategy: string := "StandardPredictor"

  /** A predictor class that the registry can construct. */
  datatype Factory = Factory(variant: string)

  /** The known predictor classes, by the name the configuration uses. */
  type Registry = map<string, Factory>

  /**
   * What a predictor constructor receives: the model, the loader, the output
   * file, the whole configuration and, as keyword options, the whole
   * `predictor` section (its `name` entry included).
   */
  datatype CtorArgs = CtorArgs(
    model: Model,
    loader: Loader,
    outputFile: string,
    config: Config,
    options: map<string, Value>)

  /** A constructed predictor: the class it is an instance of and its arguments. */
  datatype Predictor = Predictor(factory: Factory, args: CtorArgs)

  /**
   * Why no predictor could be chosen: the `name` entry is not a string
   * (reflection rejects it), or no registered class has that name.
   */
  datatype DispatchError = NameNotString(found: Value) | UnknownStrategy(name: string)

  /** `config.get('predictor', {})`. */
  function PredictorOptions(config: Config): map<string, Value> {
    match config.predictor
    case None => map[]
    case Some(options) => options
  }

  /**
   * `predictor_config.get('name', 'StandardPredictor')`, failing when the
   * value found is not a string: the default is used exactly when the
   * `name` entry is missing (or the whole section is).
   */
  function StrategyName(config: Config): (r: Result<string, DispatchError>)
    ensures "name" !in PredictorOptions(config) ==> r == Ok(DefaultStrategy)
    ensures "name" in PredictorOptions(config) ==>
      (r.Ok? <==> PredictorOptions(config)["name"].Str?) &&
      (r.Ok? ==> PredictorOptions(config)["name"] == Str(r.value)) &&
      (r.Err? ==> r.error == NameNotString(PredictorOptions(config)["name"]))
  {
    var options := PredictorOptions(config);
    if "name" !in options then Ok(DefaultStrategy)
    else match options["name"]
      case Str(name) => Ok(name)
      case other => Err(NameNotString(other))
  }

  /** The configuration names a strategy that the registry knows. */
  predicate Resolves(config: Config, registry: Registry) {
    StrategyName(config).Ok? && StrategyName(config).value in registry
  }

  /**
   * The class `getattr` finds for the configured name, or why there is none.
   * It depends on the configuration and the registry only.
   */
  function ChooseStrategy(config: Config, registry: Registry): Result<Factory, DispatchError> {
    match StrategyName(config)
    case Err(e) => Err(e)
    case Ok(name) => if name !in registry then Err(UnknownStrategy(name)) else Ok(registry[name])
  }

  /**
   * `predictor_class(model, loader, output_file, config, **predictor_config)`:
   * the whole `predictor` section is passed as keyword options.
   */
  function Instantiate(factory: Factory, model: Model, loader: Loader, outputFile: string, config: Config): Predictor {
    Predictor(factory, CtorArgs(model, loader, outputFile, config, PredictorOptions(config)))
  }

  /**
   * `_get_predictor`: a predictor is built exactly when the chosen name is a
   * registered strategy, and it is an instance of the registered class that
   * receives the model, loader, output file, configuration and the whole
   * `predictor` section; an unknown name fails and builds nothing.
   */
  function GetPredictor(registry: Registry, model: Model, loader: Loader, outputFile: string, config: Config)
    : (r: Result<Predictor, DispatchError>)
    ensures r.Ok? <==> Resolves(config, registry)
    ensures r.Ok? ==> r.value.factory == registry[StrategyName(config).value]
    ensures r.Ok? ==> r.value.args == CtorArgs(model, loader, outputFile, config, PredictorOptions(config))
    ensures StrategyName(config).Err? ==> r == Err(StrategyName(config).error)
    ensures StrategyName(config).Ok? && StrategyName(config).value !in registry ==>
      r == Err(UnknownStrategy(StrategyName(config).value))
  {
    match ChooseStrategy(config, registry)
    case Err(e) => Err(e)
    case Ok(factory) => Ok(Instantiate(factory, model, loader, outputFile, config))
  }

  /**
   * Whether a predictor is built depends on the configuration and the
   * registry only, never on the model, loader or output file.
   */
  lemma DispatchIndependentOfDataset(registry: Registry, config: Config,
                                     m1: Model, l1: Loader, o1: string,
                                     m2: Model, l2: Loader, o2: string)
    ensures GetPredictor(registry, m1, l1, o1, config).Ok? == GetPredictor(registry, m2, l2, o2, config).Ok?
    ensures GetPredictor(registry, m1, l1, o1, config).Err? ==>
      GetPredictor(registry, m1, l1, o1, config) == GetPredictor(registry, m2, l2, o2, config)
  {
  }

  /**
   * With no `predictor` section, or one without a `name`, the standard
   * predictor is constructed if it is registered and nothing otherwise.
   */
  lemma DefaultStrategyUsed(registry: Registry, model: Model, loader: Loader, outputFile: string, config: Config)
    requires "name" !in PredictorOptions(config)
    ensures DefaultStrategy in registry ==>
      GetPredictor(registry, model, loader, outputFile, config).Ok? &&
      GetPredictor(registry, model, loader, outputFile, config).value.factory == registry[DefaultStrategy]
    ensures DefaultStrategy !in registry ==>
      GetPredictor(registry, model, loader, outputFile, config) == Err(UnknownStrategy(DefaultStrategy))
  {
  }
}

=== FILE: names.dfy ===
/**
 * `_get_dataset_names`: the names of the containers a predictor writes into
 * one output file. Explicit names from the configuration win; otherwise one
 * container is called `prefix` and several are `prefix0`, `prefix1`, ...
 */
module Names {
  import opened Configs
  import opened Decimal

  /** The prefix `_get_dataset_names` uses by default. */
  const DefaultPrefix: string := "predictions"

  /** The i-th default name, `f'{prefix}{i}'`. */
  function IndexedName(prefix: string, i: nat): (r: string)
    ensures |r| > |prefix| && r[..|prefix|] == prefix
    ensures IsNumeral(r[|prefix|..]) && NumeralValue(r[|prefix|..]) == i
    ensures r[|prefix|] == '0' ==> |r| == |prefix| + 1
  {
    var r := prefix + NatToString(i);
    assert r[|prefix|..] == NatToString(i);
    r
  }

  /**
   * The four-way rule: an explicit string gives a one-element list, an
   * explicit list is returned unchanged, and without explicit names a count
   * of one gives the bare prefix while any other count gives the indexed
   * names for `range(count)` (none when the count is zero or negative).
   */
  function DatasetNames(config: Config, count: int, prefix: string): (r: seq<string>)
    ensures config.destDatasetName.Single? ==> r == [config.destDatasetName.name]
    ensures config.destDatasetName.Many? ==> r == config.destDatasetName.names
    ensures config.destDatasetName.Absent? ==> |r| == if count < 0 then 0 else count
    ensures config.destDatasetName.Absent? ==> forall i :: 0 <= i < |r| ==> prefix <= r[i]
    ensures config.destDatasetName.Absent? && count == 1 ==> r == [prefix]
  {
    match config.destDatasetName
    case Single(name) => [name]
    case Many(names) => names
    case Absent =>
      if count == 1 then [prefix]
      else seq(if count < 0 then 0 else count, i requires 0 <= i => IndexedName(prefix, i))
  }

  /**
   * Without explicit names and with a count other than one, the i-th name is
   * the prefix followed by the numeral of i, in increasing order of i.
   */
  lemma DefaultNamesIndexed(config: Config, count: int, prefix: string, i: nat)
    requires config.destDatasetName.Absent? && count != 1 && i < count
    ensures DatasetNames(config, count, prefix)[i] == prefix + NatToString(i)
  {
  }

  /**
   * Default names never collide: two positions of the default list hold
   * equal names only if they are the same position.
   */
  lemma DefaultNamesDistinct(config: Config, count: int, prefix: string, i: nat, j: nat)
    requires config.destDatasetName.Absent?
    requires i < |DatasetNames(config, count, prefix)| && j < |DatasetNames(config, count, prefix)|
    requires DatasetNames(config, count, prefix)[i] == DatasetNames(config, count, prefix)[j]
    ensures i == j
  {
    var names := DatasetNames(config, count, prefix);
    if count != 1 {
      var a, b := names[i], names[j];
      assert a == IndexedName(prefix, i) && b == IndexedName(prefix, j);
      assert NumeralValue(a[|prefix|..]) == i;
      assert NumeralValue(b[|prefix|..]) == j;
    }
  }

  /** Without explicit names, counts 1, 3 and 0 give the bare prefix, three indexed names and none. */
  lemma DefaultNameExamples(config: Config)
    requires config.destDatasetName.Absent?
    ensures DatasetNames(config, 1, DefaultPrefix) == ["predictions"]
    ensures DatasetNames(config, 3, DefaultPrefix) == ["predictions0", "predictions1", "predictions2"]
    ensures DatasetNames(config, 0, DefaultPrefix) == []
  {
    var names := DatasetNames(config, 3, DefaultPrefix);
    assert NatToString(0) == "0" && NatToString(1) == "1" && NatToString(2) == "2";
    assert names[0] == "predictions0" && names[1] == "predictions1" && names[2] == "predictions2";
  }

  /** Explicit names are returned whatever count is requested, even one that differs from their number. */
  lemma ExplicitNameExamples(config: Config, count: int)
    ensures config.destDatasetName == Single("foo") ==> DatasetNames(config, count, DefaultPrefix) == ["foo"]
    ensures config.destDatasetName == Many(["a", "b"]) ==> DatasetNames(config, count, DefaultPrefix) == ["a", "b"]
  {
  }
}

=== FILE: orchestrator.dfy ===
/**
 * The prediction driver `main`: restore the checkpoint and move the model to
 * its device once, then for every test loader in order derive the output
 * file, construct the configured predictor and run it. Nothing is caught:
 * the first failure ends the run.
 *
 * `RunSpec` states the whole run as a function of its inputs, returning the
 * outcome and the trace of steps taken; `RunPredictions` is the driver
 * itself, proved to produce exactly that outcome and trace.
 */
module Orchestrator {
  import opened Wrappers
  import opened Configs
  import opened Paths
  import opened Dispatch

  /** A step of the run that the trace records. */
  datatype Event =
    | LoadCheckpoint(path: string)
    | PlaceOnDevice(device: string)
    | DeriveOutput(source: string, output: string)
    | Construct(predictor: Predictor)
    | Predict(output: string)

  /** Steps taken for one loader inside the loop. */
  predicate IsDatasetEvent(e: Event) {
    e.DeriveOutput? || e.Construct? || e.Predict?
  }

  /**
   * What ends a run early: a configuration key read with `config[...]` is
   * missing, the checkpoint cannot be restored, the device is not available,
   * no predictor can be chosen, or the predictor for the loader at `index`
   * fails.
   */
  datatype Failure =
    | MissingKey(key: string)
    | CheckpointFailure(path: string)
    | DeviceFailure(device: string)
    | DispatchFailure(error: DispatchError)
    | PredictFailure(index: nat)

  datatype RunOutcome = Completed | Aborted(failure: Failure)

  /** How a run (or part of one) ended, and the steps it took in order. */
  datatype Run = Run(outcome: RunOutcome, trace: seq<Event>)

  /** The output file the driver derives for a loader. */
  function OutputFor(loader: Loader): string {
    OutputFile(loader.filePath, DefaultSuffix)
  }

  /** Restoring the checkpoint and moving the model to the device both succeed. */
  predicate RestoreSucceeds(config: Config, checkpoints: set<string>, devices: set<string>) {
    config.modelPath.Some? && config.modelPath.value in checkpoints &&
    config.device.Some? && config.device.value in devices
  }

  /** The model after `load_checkpoint` and `.to(device)`. */
  function RestoredModel(config: Config, model: Model): Model
    requires config.modelPath.Some? && config.device.Some?
  {
    model.(weights := config.modelPath, device := config.device)
  }

  /**
   * One iteration of the loop, for the loader at position `index`: the
   * output file is derived, then the class the configuration selects is
   * instantiated for this loader and run.
   */
  function Step(config: Config, registry: Registry, model: Model, loader: Loader, index: nat): Run {
    var output := OutputFor(loader);
    var derived := [DeriveOutput(loader.filePath, output)];
    match GetPredictor(registry, model, loader, output, config)
    case Err(e) => Run(Aborted(DispatchFailure(e)), derived)
    case Ok(predictor) =>
      Run(if loader.predictSucceeds then Completed else Aborted(PredictFailure(index)),
          derived + [Construct(predictor), Predict(output)])
  }

  /** `run`, preceded by the steps in `events`. */
  function Prefixed(events: seq<Event>, run: Run): Run {
    Run(run.outcome, events + run.trace)
  }

  /** Prefixing two runs of steps in turn is prefixing them together. */
  lemma PrefixedTwice(first: seq<Event>, second: seq<Event>, run: Run)
    ensures Prefixed(first, Prefixed(second, run)) == Prefixed(first + second, run)
  {
    assert first + (second + run.trace) == first + second + run.trace;
  }

  /** The loop from the loader at position `i` to the last one. */
  function ProcessFrom(config: Config, registry: Registry, model: Model, loaders: seq<Loader>, i: nat): Run
    decreases |loaders| - i
  {
    if i >= |loaders| then Run(Completed, [])
    else
      var step := Step(config, registry, model, loaders[i], i);
      if step.outcome.Aborted? then step
      else Prefixed(step.trace, ProcessFrom(config, registry, model, loaders, i + 1))
  }

  /**
   * The whole run. `checkpoints` are the paths holding a checkpoint the model
   * can be restored from and `devices` the devices present; `model` is the
   * network built from the configuration and `loaders` the test loaders.
   * The `device` key is read only after the checkpoint has been restored.
   */
  function RunSpec(config: Config, registry: Registry, checkpoints: set<string>, devices: set<string>,
                   model: Model, loaders: seq<Loader>): Run
  {
    match config.modelPath
    case None => Run(Aborted(MissingKey("model_path")), [])
    case Some(path) =>
      if path !in checkpoints then Run(Aborted(CheckpointFailure(path)), [LoadCheckpoint(path)])
      else match config.device
        case None => Run(Aborted(MissingKey("device")), [LoadCheckpoint(path)])
        case Some(device) =>
          if device !in devices then
            Run(Aborted(DeviceFailure(device)), [LoadCheckpoint(path), PlaceOnDevice(device)])
          else
            Prefixed([LoadCheckpoint(path), PlaceOnDevice(device)],
                     ProcessFrom(config, registry, RestoredModel(config, model), loaders, 0))
  }

  /**
   * `main`: the driver, with the checkpoint store, the available devices, the
   * model from `get_model` and the loaders from `get_test_loaders` given as
   * inputs. Its outcome and the ghost trace of its steps are exactly those of
   * `RunSpec`.
   */
  method RunPredictions(config: Config, registry: Registry, checkpoints: set<string>, devices: set<string>,
                        model0: Model, loaders: seq<Loader>)
    returns (outcome: RunOutcome, ghost trace: seq<Event>)
    ensures outcome == RunSpec(config, registry, checkpoints, devices, model0, loaders).outcome
    ensures trace == RunSpec(config, registry, checkpoints, devices, model0, loaders).trace
  {
    trace := [];
    var model := model0;
    if config.modelPath.None? {
      outcome := Aborted(MissingKey("model_path"));
      return;
    }
    var modelPath := config.modelPath.value;
    trace := trace + [LoadCheckpoint(modelPath)];
    if modelPath !in checkpoints {
      outcome := Aborted(CheckpointFailure(modelPath));
      return;
    }
    model := model.(weights := Some(modelPath));
    if config.device.None? {
      outcome := Aborted(MissingKey("device"));
      return;
    }
    var device := config.device.value;
    trace := trace + [PlaceOnDevice(device)];
    if device !in devices {
      outcome := Aborted(DeviceFailure(device));
      return;
    }
    model := model.(device := Some(device));
    assert model == RestoredModel(config, model0);
    ghost var loopTrace;
    outcome, loopTrace := PredictAll(config, registry, model, loaders);
    trace := trace + loopTrace;
  }

  /**
   * The loop of `main` over the test loaders: derive the output file,
   * construct the predictor, run it; the first failure ends the loop.
   */
  method PredictAll(config: Config, registry: Registry, model: Model, loaders: seq<Loader>)
    returns (outcome: RunOutcome, ghost trace: seq<Event>)
    ensures outcome == ProcessFrom(config, registry, model, loaders, 0).outcome
    ensures trace == ProcessFrom(config, registry, model, loaders, 0).trace
  {
    trace := [];
    var i: nat := 0;
    while i < |loaders|
      invariant i <= |loaders|
      invariant ProcessFrom(config, registry, model, loaders, 0) ==
        Prefixed(trace, ProcessFrom(config, registry, model, loaders, i))
    {
      var stepOutcome, events := PredictLoader(config, registry, model, loaders[i], i);
      PrefixedTwice(trace, events, ProcessFrom(config, registry, model, loaders, i + 1));
      trace := trace + events;
      if stepOutcome.Aborted? {
        outcome := stepOutcome;
        return;
      }
      i := i + 1;
    }
    outcome := Completed;
  }

  /**
   * One turn of the loop of `main`: derive the loader's output file,
   * construct the predictor for it and run it.
   */
  method PredictLoader(config: Config, registry: Registry, model: Model, loader: Loader, index: nat)
    returns (outcome: RunOutcome, ghost events: seq<Event>)
    ensures outcome == Step(config, registry, model, loader, index).outcome
    ensures events == Step(config, registry, model, loader, index).trace
  {
    var outputFile := OutputFor(loader);
    events := [DeriveOutput(loader.filePath, outputFile)];
    match GetPredictor(registry, model, loader, outputFile, config)
    case Err(e) =>
      outcome := Aborted(DispatchFailure(e));
    case Ok(predictor) =>
      events := events + [Construct(predictor), Predict(outputFile)];
      outcome := if loader.predictSucceeds then Completed else Aborted(PredictFailure(index));
  }

  /** The three steps of a loader that completes: derive, construct, predict. */
  function StepEvents(config: Config, registry: Registry, model: Model, loader: Loader): seq<Event>
    requires Resolves(config, registry)
  {
    var output := OutputFor(loader);
    [DeriveOutput(loader.filePath, output),
     Construct(Instantiate(ChooseStrategy(config, registry).value, model, loader, output, config)),
     Predict(output)]
  }

  /** With a resolvable predictor name, a loader's turn takes its three steps. */
  lemma StepResolved(config: Config, registry: Registry, model: Model, loader: Loader, index: nat)
    requires Resolves(config, registry)
    ensures Step(config, registry, model, loader, index) ==
      Run(if loader.predictSucceeds then Completed else Aborted(PredictFailure(index)),
          StepEvents(config, registry, model, loader))
  {
  }

  /** The steps of every loader in order. */
  function AllSteps(config: Config, registry: Registry, model: Model, loaders: seq<Loader>): seq<Event>
    requires Resolves(config, registry)
  {
    if loaders == [] then []
    else StepEvents(config, registry, model, loaders[0]) + AllSteps(config, registry, model, loaders[1..])
  }

  /**
   * The steps for the loaders come in blocks of three, block i belonging to
   * loader i: one output path derived, one predictor constructed with that
   * loader and path, one prediction run.
   */
  lemma {:induction false} AllStepsAt(config: Config, registry: Registry, model: Model, loaders: seq<Loader>, i: nat)
    requires Resolves(config, registry) && i < |loaders|
    ensures |AllSteps(config, registry, model, loaders)| == 3 * |loaders|
    ensures AllSteps(config, registry, model, loaders)[3 * i] ==
      DeriveOutput(loaders[i].filePath, OutputFor(loaders[i]))
    ensures AllSteps(config, registry, model, loaders)[3 * i + 1] ==
      Construct(Predictor(registry[StrategyName(config).value],
                          CtorArgs(model, loaders[i], OutputFor(loaders[i]), config, PredictorOptions(config))))
    ensures AllSteps(config, registry, model, loaders)[3 * i + 2] == Predict(OutputFor(loaders[i]))
  {
    if i > 0 {
      AllStepsAt(config, registry, model, loaders[1..], i - 1);
    } else if |loaders| > 1 {
      AllStepsAt(config, registry, model, loaders[1..], 0);
    } else {
      assert loaders[1..] == [];
    }
  }

  /** The loop takes nothing but per-loader steps, all over the one model it is given. */
  lemma {:induction false} ProcessFromDatasetEventsOnly(config: Config, registry: Registry, model: Model,
                                                       loaders: seq<Loader>, i: nat)
    requires i <= |loaders|
    ensures forall e :: e in ProcessFrom(config, registry, model, loaders, i).trace ==> IsDatasetEvent(e)
    ensures forall e :: e in ProcessFrom(config, registry, model, loaders, i).trace && e.Construct? ==>
      e.predictor.args.model == model
    decreases |loaders| - i
  {
    if i < |loaders| {
      var step := Step(config, registry, model, loaders[i], i);
      if step.outcome.Completed? {
        ProcessFromDatasetEventsOnly(config, registry, model, loaders, i + 1);
      }
    }
  }

  /**
   * The loop from position i completes exactly when no loader is left, or
   * the predictor name resolves and every remaining prediction succeeds; it
   * then has taken the three steps of every remaining loader, in order.
   */
  lemma {:induction false} ProcessFromCompletes(config: Config, registry: Registry, model: Model,
                                               loaders: seq<Loader>, i: nat)
    requires i <= |loaders|
    ensures ProcessFrom(config, registry, model, loaders, i).outcome.Completed? <==>
      (i == |loaders| || Resolves(config, registry)) && forall j :: i <= j < |loaders| ==> loaders[j].predictSucceeds
    ensures ProcessFrom(config, registry, model, loaders, i).outcome.Completed? && i < |loaders| ==>
      ProcessFrom(config, registry, model, loaders, i).trace == AllSteps(config, registry, model, loaders[i..])
    decreases |loaders| - i
  {
    if i < |loaders| {
      ProcessFromCompletes(config, registry, model, loaders, i + 1);
      if Resolves(config, registry) && loaders[i].predictSucceeds {
        assert loaders[i..][0] == loaders[i];
        assert loaders[i..][1..] == loaders[i + 1..];
        if i + 1 == |loaders| {
          assert AllSteps(config, registry, model, loaders[i + 1..]) == [];
        }
      }
    }
  }

  /**
   * If the k-th loader is the first from position i on whose prediction
   * fails, the loop stops with that failure after the steps of loaders
   * i..k; later loaders are never touched.
   */
  lemma {:induction false} ProcessFromStopsAtFailure(config: Config, registry: Registry, model: Model,
                                                    loaders: seq<Loader>, i: nat, k: nat)
    requires Resolves(config, registry)
    requires i <= k < |loaders| && !loaders[k].predictSucceeds
    requires forall j :: i <= j < k ==> loaders[j].predictSucceeds
    ensures ProcessFrom(config, registry, model, loaders, i) ==
      Run(Aborted(PredictFailure(k)), AllSteps(config, registry, model, loaders[i..k + 1]))
    decreases k - i
  {
    var block := loaders[i..k + 1];
    var events := StepEvents(config, registry, model, loaders[i]);
    StepResolved(config, registry, model, loaders[i], i);
    assert block[0] == loaders[i];
    assert AllSteps(config, registry, model, block) == events + AllSteps(config, registry, model, block[1..]);
    if k == i {
      assert block[1..] == [];
    } else {
      assert block[1..] == loaders[i + 1..k + 1];
      ProcessFromStopsAtFailure(config, registry, model, loaders, i + 1, k);
    }
  }

  /**
   * A predictor name that does not resolve stops the loop at the next
   * loader, after deriving its output path and before any predictor is
   * constructed.
   */
  lemma ProcessFromUnresolved(config: Config, registry: Registry, model: Model, loaders: seq<Loader>, i: nat)
    requires !Resolves(config, registry) && i < |loaders|
    ensures ProcessFrom(config, registry, model, loaders, i) ==
      Run(Aborted(DispatchFailure(GetPredictor(registry, model, loaders[i], OutputFor(loaders[i]), config).error)),
          [DeriveOutput(loaders[i].filePath, OutputFor(loaders[i]))])
  {
  }

  /**
   * Restoring happens once and first: the checkpoint is loaded only as the
   * first step and the model placed only as the second; any step for a
   * loader comes after both, and every predictor is constructed over the
   * model restored from the configured checkpoint and placed on the
   * configured device.
   */
  lemma RestoreOnceBeforeLoop(config: Config, registry: Registry, checkpoints: set<string>, devices: set<string>,
                              model: Model, loaders: seq<Loader>)
    ensures var t := RunSpec(config, registry, checkpoints, devices, model, loaders).trace;
      forall i :: 0 <= i < |t| && t[i].LoadCheckpoint? ==> i == 0
    ensures var t := RunSpec(config, registry, checkpoints, devices, model, loaders).trace;
      forall i :: 0 <= i < |t| && t[i].PlaceOnDevice? ==> i == 1
    ensures var t := RunSpec(config, registry, checkpoints, devices, model, loaders).trace;
      forall i :: 0 <= i < |t| && IsDatasetEvent(t[i]) ==>
        i >= 2 && RestoreSucceeds(config, checkpoints, devices) &&
        t[..2] == [LoadCheckpoint(config.modelPath.value), PlaceOnDevice(config.device.value)]
    ensures forall e :: e in RunSpec(config, registry, checkpoints, devices, model, loaders).trace && e.Construct? ==>
      e.predictor.args.model.weights == config.modelPath && e.predictor.args.model.device == config.device
  {
    if RestoreSucceeds(config, checkpoints, devices) {
      var restored := RestoredModel(config, model);
      ProcessFromDatasetEventsOnly(config, registry, restored, loaders, 0);
      var rest := ProcessFrom(config, registry, restored, loaders, 0);
      var t := RunSpec(config, registry, checkpoints, devices, model, loaders).trace;
      assert t == [LoadCheckpoint(config.modelPath.value), PlaceOnDevice(config.device.value)] + rest.trace;
      forall i | 2 <= i < |t| ensures IsDatasetEvent(t[i]) {
        assert t[i] == rest.trace[i - 2];
        assert t[i] in rest.trace;
      }
      forall e | e in t && e.Construct? ensures e.predictor.args.model == restored {
        assert e in rest.trace;
      }
    }
  }

  /**
   * A failed restore (missing key, unloadable checkpoint, unavailable device)
   * aborts the run before any loader is touched.
   */
  lemma RestoreFailureProcessesNothing(config: Config, registry: Registry, checkpoints: set<string>,
                                       devices: set<string>, model: Model, loaders: seq<Loader>)
    requires !RestoreSucceeds(config, checkpoints, devices)
    ensures RunSpec(config, registry, checkpoints, devices, model, loaders).outcome.Aborted?
    ensures forall e :: e in RunSpec(config, registry, checkpoints, devices, model, loaders).trace ==> !IsDatasetEvent(e)
  {
  }

  /**
   * The run completes exactly when restoring succeeds, the predictor name
   * resolves (or there is no loader) and every prediction succeeds; it then
   * consists of the two restore steps followed by the steps of every loader.
   */
  lemma RunCompletes(config: Config, registry: Registry, checkpoints: set<string>, devices: set<string>,
                     model: Model, loaders: seq<Loader>)
    ensures RunSpec(config, registry, checkpoints, devices, model, loaders).outcome.Completed? <==>
      RestoreSucceeds(config, checkpoints, devices) && (loaders == [] || Resolves(config, registry)) &&
      forall j :: 0 <= j < |loaders| ==> loaders[j].predictSucceeds
    ensures RunSpec(config, registry, checkpoints, devices, model, loaders).outcome.Completed? && loaders != [] ==>
      RunSpec(config, registry, checkpoints, devices, model, loaders).trace ==
        [LoadCheckpoint(config.modelPath.value), PlaceOnDevice(config.device.value)] +
        AllSteps(config, registry, RestoredModel(config, model), loaders)
  {
    if RestoreSucceeds(config, checkpoints, devices) {
      ProcessFromCompletes(config, registry, RestoredModel(config, model), loaders, 0);
      assert loaders[0..] == loaders;
    }
  }

  /**
   * If the k-th loader is the first whose prediction fails, the run fails
   * with that loader's failure after the restore steps and the steps of
   * loaders 0..k: the loaders before it have completed and the ones after
   * it are never touched.
   */
  lemma RunStopsAtFirstFailure(config: Config, registry: Registry, checkpoints: set<string>, devices: set<string>,
                               model: Model, loaders: seq<Loader>, k: nat)
    requires RestoreSucceeds(config, checkpoints, devices) && Resolves(config, registry)
    requires k < |loaders| && !loaders[k].predictSucceeds
    requires forall j :: 0 <= j < k ==> loaders[j].predictSucceeds
    ensures RunSpec(config, registry, checkpoints, devices, model, loaders) ==
      Run(Aborted(PredictFailure(k)),
          [LoadCheckpoint(config.modelPath.value), PlaceOnDevice(config.device.value)] +
          AllSteps(config, registry, RestoredModel(config, model), loaders[..k + 1]))
  {
    ProcessFromStopsAtFailure(config, registry, RestoredModel(config, model), loaders, 0, k);
    assert loaders[0..k + 1] == loaders[..k + 1];
  }
}

=== FILE: paths.dfy ===
/**
 * Output-path derivation: `_get_output_file` strips the extension of a
 * dataset's file path the way POSIX `os.path.splitext` does and appends a
 * suffix and the `.h5` extension.
 */
module Paths {

  /** The suffix `_get_output_file` uses by default (and the only one the driver uses). */
  const DefaultSuffix: string := "_predictions"

  /** The fixed extension of every prediction file. */
  const OutputExtension: string := ".h5"

  /**
   * `e` is an extension as `splitext` returns one: a dot followed by
   * characters that are neither dots nor path separators.
   */
  predicate IsExtension(e: string) {
    |e| >= 1 && e[0] == '.' && forall i :: 1 <= i < |e| ==> e[i] != '.' && e[i] != '/'
  }

  /**
   * The final path component of `s` holds a character other than a dot:
   * a dot after it starts an extension, and leading dots of the component
   * never do.
   */
  predicate HasStemChar(s: string) {
    exists k :: 0 <= k < |s| && s[k] != '.' && '/' !in s[k..]
  }

  /**
   * `p` has an extension: its final component contains a dot with some
   * non-dot character before it.
   */
  predicate HasExtension(p: string) {
    exists k, j :: 0 <= k < j < |p| && p[k] != '.' && p[j] == '.' && '/' !in p[k..]
  }

  /**
   * `HasStemChar`, decided by scanning the final component from its end
   * back over the dots.
   */
  function StemCharIn(s: string): bool {
    if s == [] then false
    else if s[|s| - 1] == '/' then false
    else if s[|s| - 1] != '.' then true
    else StemCharIn(s[..|s| - 1])
  }

  lemma {:induction false} StemCharInSpec(s: string)
    ensures StemCharIn(s) <==> HasStemChar(s)
  {
    if s != [] {
      var q, c := s[..|s| - 1], s[|s| - 1];
      assert forall k :: 0 <= k < |q| ==> s[k..] == q[k..] + [c];
      assert s[|s| - 1..] == [c];
      if c == '.' {
        StemCharInSpec(q);
        if HasStemChar(q) {
          var k :| 0 <= k < |q| && q[k] != '.' && '/' !in q[k..];
          assert s[k] != '.' && '/' !in s[k..];
        }
        if HasStemChar(s) {
          var k :| 0 <= k < |s| && s[k] != '.' && '/' !in s[k..];
          assert q[k] != '.' && '/' !in q[k..];
        }
      }
    }
  }

  /**
   * POSIX `os.path.splitext`, as a scan from the end of the path back to the
   * last dot or separator: a dot ends the scan with an extension only if the
   * rest of the final component holds a non-dot character. `SplitExtSpec`
   * characterises the split.
   */
  function SplitExt(p: string): (string, string)
  {
    if p == [] then (p, [])
    else
      var q, c := p[..|p| - 1], p[|p| - 1];
      if c == '/' then (p, [])
      else if c == '.' then
        if StemCharIn(q) then (q, [c]) else (p, [])
      else
        var (stem, ext) := SplitExt(q);
        if ext == [] then (p, []) else (stem, ext + [c])
  }

  /** A path ending in a separator has no extension. */
  lemma NoExtensionAfterSeparator(p: string)
    requires p != [] && p[|p| - 1] == '/'
    ensures !HasExtension(p)
  {
    forall k | 0 <= k < |p| ensures '/' in p[k..] {
      assert p[k..][|p| - 1 - k] == '/';
    }
  }

  /** A path ending in a dot has an extension exactly when the rest has a stem character. */
  lemma ExtensionAfterDot(p: string)
    requires p != [] && p[|p| - 1] == '.'
    ensures HasExtension(p) <==> HasStemChar(p[..|p| - 1])
  {
    var q := p[..|p| - 1];
    if HasStemChar(q) {
      var k :| 0 <= k < |q| && q[k] != '.' && '/' !in q[k..];
      assert p[k..] == q[k..] + ['.'];
      assert p[k] != '.' && p[|p| - 1] == '.' && '/' !in p[k..];
    }
    if HasExtension(p) {
      var k, j :| 0 <= k < j < |p| && p[k] != '.' && p[j] == '.' && '/' !in p[k..];
      assert p[k..] == q[k..] + ['.'];
      assert q[k] != '.' && '/' !in q[k..];
    }
  }

  /** A last character that is neither a dot nor a separator does not change whether there is an extension. */
  lemma ExtensionAfterOther(p: string)
    requires p != [] && p[|p| - 1] != '.' && p[|p| - 1] != '/'
    ensures HasExtension(p) <==> HasExtension(p[..|p| - 1])
  {
    var q, c := p[..|p| - 1], p[|p| - 1];
    if HasExtension(q) {
      var k, j :| 0 <= k < j < |q| && q[k] != '.' && q[j] == '.' && '/' !in q[k..];
      assert p[k..] == q[k..] + [c];
      assert p[k] != '.' && p[j] == '.' && '/' !in p[k..];
    }
    if HasExtension(p) {
      var k, j :| 0 <= k < j < |p| && p[k] != '.' && p[j] == '.' && '/' !in p[k..];
      assert j < |q|;
      assert p[k..] == q[k..] + [c];
      assert q[k] != '.' && q[j] == '.' && '/' !in q[k..];
    }
  }

  /**
   * What `splitext` promises: the two parts concatenate back to the path,
   * the extension is empty or a dot followed by neither dots nor separators,
   * and it is non-empty exactly when the final component has a dot preceded
   * by some non-dot character.
   */
  lemma {:induction false} SplitExtSpec(p: string)
    ensures SplitExt(p).0 + SplitExt(p).1 == p
    ensures SplitExt(p).1 == [] || IsExtension(SplitExt(p).1)
    ensures SplitExt(p).1 != [] <==> HasExtension(p)
  {
    if p != [] {
      var q, c := p[..|p| - 1], p[|p| - 1];
      if c == '/' {
        NoExtensionAfterSeparator(p);
      } else if c == '.' {
        StemCharInSpec(q);
        ExtensionAfterDot(p);
      } else {
        SplitExtSpec(q);
        ExtensionAfterOther(p);
      }
    }
  }

  /** `_get_output_file`: the file path without its extension, then `suffix`, then `.h5`. */
  function OutputFile(filePath: string, suffix: string): string {
    SplitExt(filePath).0 + suffix + OutputExtension
  }

  /**
   * The output file keeps a prefix of the source path and ends with the
   * suffix and the output extension.
   */
  lemma OutputFileShape(filePath: string, suffix: string)
    ensures |OutputFile(filePath, suffix)| >= |suffix| + |OutputExtension|
    ensures OutputFile(filePath, suffix)[|OutputFile(filePath, suffix)| - |suffix| - |OutputExtension|..] ==
      suffix + OutputExtension
    ensures OutputFile(filePath, suffix)[..|OutputFile(filePath, suffix)| - |suffix| - |OutputExtension|] <= filePath
  {
    SplitExtSpec(filePath);
  }

  /**
   * `splitext` is determined by its contract: a path written as a stem whose
   * final component has a non-dot character, followed by an extension,
   * splits into exactly that stem and extension.
   */
  lemma {:induction false} SplitExtUnique(s: string, e: string)
    requires IsExtension(e) && HasStemChar(s)
    ensures SplitExt(s + e) == (s, e)
    decreases |e|
  {
    var p := s + e;
    assert p[..|p| - 1] == s + e[..|e| - 1];
    if |e| == 1 {
      StemCharInSpec(s);
      assert e == [p[|p| - 1]];
    } else {
      SplitExtUnique(s, e[..|e| - 1]);
      assert e[..|e| - 1] + [e[|e| - 1]] == e;
    }
  }

  /** A path with an extension loses exactly that extension in `_get_output_file`. */
  lemma OutputFileReplacesExtension(s: string, e: string, suffix: string)
    requires IsExtension(e) && HasStemChar(s)
    ensures OutputFile(s + e, suffix) == s + suffix + OutputExtension
  {
    SplitExtUnique(s, e);
  }

  /** A path without an extension is kept whole as the stem. */
  lemma OutputFileWithoutExtension(p: string, suffix: string)
    requires !HasExtension(p)
    ensures OutputFile(p, suffix) == p + suffix + OutputExtension
  {
    SplitExtSpec(p);
  }

  /**
   * With a non-empty suffix the prediction file never overwrites the source:
   * the source continues after the stem with a dot (or ends), the output with
   * the suffix and then a dot that no extension contains past its start.
   */
  lemma OutputFileNotSource(p: string, suffix: string)
    requires suffix != []
    ensures OutputFile(p, suffix) != p
  {
    var (stem, ext) := SplitExt(p);
    SplitExtSpec(p);
    var r := OutputFile(p, suffix);
    if ext == [] {
      assert |r| > |p|;
    } else if |r| == |p| {
      var i := |stem| + |suffix|;
      assert r[i] == '.';
      assert p[i] == ext[|suffix|] != '.';
    }
  }

  /** A dataset file `a.h5` maps to `a_predictions.h5`. */
  lemma ExtensionOutput()
    ensures OutputFile("a.h5", DefaultSuffix) == "a_predictions.h5"
  {
    var a := "a";
    assert a[0] != '.' && a[0..] == a;
    assert HasStemChar(a);
    assert IsExtension(OutputExtension);
    OutputFileReplacesExtension(a, OutputExtension, DefaultSuffix);
    assert a + OutputExtension == "a.h5";
    assert a + DefaultSuffix + OutputExtension == "a_predictions.h5";
  }

  /** A dataset in a sub-directory keeps its directory. */
  lemma SubdirectoryOutput()
    ensures OutputFile("data/b.h5", DefaultSuffix) == "data/b_predictions.h5"
  {
    var b := "data/b";
    assert b[5] != '.' && b[5..] == "b";
    assert HasStemChar(b);
    assert IsExtension(OutputExtension);
    OutputFileReplacesExtension(b, OutputExtension, DefaultSuffix);
    assert b + OutputExtension == "data/b.h5";
    assert b + DefaultSuffix + OutputExtension == "data/b_predictions.h5";
  }

  /** A dot in a directory name does not start an extension. */
  lemma DirectoryDotExample()
    ensures OutputFile("data.v1/volume", DefaultSuffix) == "data.v1/volume_predictions.h5"
  {
    var p := "data.v1/volume";
    assert !HasExtension(p) by {
      forall k | 0 <= k < 8 ensures '/' in p[k..] {
        assert p[k..][7 - k] == '/';
      }
      forall j | 8 <= j < |p| ensures p[j] != '.' { }
    }
    OutputFileWithoutExtension(p, DefaultSuffix);
  }

  /** The leading dot of a hidden file does not start an extension. */
  lemma HiddenFileExample()
    ensures OutputFile(".hidden", DefaultSuffix) == ".hidden_predictions.h5"
  {
    var p := ".hidden";
    assert !HasExtension(p) by {
      forall j | 1 <= j < |p| ensures p[j] != '.' { }
    }
    OutputFileWithoutExtension(p, DefaultSuffix);
  }

  /**
   * Distinct dataset files can share an output file: `a.h5` and `a.hdf5`
   * both map to `a_predictions.h5`, so one run over both writes the second
   * prediction over the first.
   */
  lemma OutputFileNotInjective()
    ensures "a.h5" != "a.hdf5"
    ensures OutputFile("a.h5", DefaultSuffix) == OutputFile("a.hdf5", DefaultSuffix) == "a_predictions.h5"
  {
    var a, h5, hdf5 := "a", ".h5", ".hdf5";
    assert a[0] != '.' && a[0..] == a;
    assert HasStemChar(a);
    assert IsExtension(h5) && IsExtension(hdf5);
    OutputFileReplacesExtension(a, h5, DefaultSuffix);
    OutputFileReplacesExtension(a, hdf5, DefaultSuffix);
    assert a + h5 == "a.h5" && a + hdf5 == "a.hdf5";
    assert a + DefaultSuffix + OutputExtension == "a_predictions.h5";
  }
}

=== FILE: wrappers.dfy ===
/** Option and Result datatypes shared by the other modules. */
module Wrappers {

  /** A value that may be missing: a key absent from a configuration mapping. */
  datatype Option<+T> = None | Some(value: T)

  /** The outcome of an operation that may raise instead of returning. */
  datatype Result<+T, +E> = Ok(value: T) | Err(error: E)
}
